=== FILE: README.md ===
# Bedtime Stories — a Dafny model of the app's screen logic

Bedtime Stories is a React Native storybook app for children. Its logic lives in
four places, and this project models each as pure functions over immutable
records:

- **the story reader** (`StoryPageScreen`). It looks a story up by id and
  keeps the page index. It turns swipes into page changes with a ±50 px dead
  zone. In listen mode it maps the playback second to the page whose
  timestamp interval contains it, and it has ±10 s seek buttons, a one-second
  playback ticker and an `m:ss` clock;
- **the story-creation wizard** (`CreateStoryScreen`). It has the steps
  `method → details → content` with their guards. On the content step the
  draft's pages can be added, edited and deleted, and "Save Story" is enabled
  only when every page has text. "Generate Story" checks the coin balance;
- **the home screen** (`HomeScreen`). It has the favourite and saved toggles
  over `id → bool` maps, the saved-stories list, the five star icons and the
  "K"/"M" read-count suffix, and it opens a book in the reader;
- **the mock authentication provider** (`AuthContext`). Its login, register
  and logout are transitions on the signed-in user. The user starts as none
  (`null`).

Files: `wrappers.dfy` (`Option`), `decimal.dfy` (whole numbers below 10^21 as
JavaScript prints them, and their parser), `sequences.dfy` (order-preserving
sub-lists), `content.dfy` (the story records of the bundled
collection), `reader.dfy`, `create_story.dfy`, `home.dfy`, `auth.dfy`.

Three points where the model follows the code as written:

- a swipe needs `dx < -50` or `dx > 50`. The comparisons are strict, so a drag
  of exactly 50 px does nothing;
- a new `bookId` clears the mode and the page index but not the playback
  position, and only after the first render for the new book (see Findings);
- nothing bounds-checks a page change. Within one story's session the model's
  targets are in range, and `RunPreservesValid` proves it. Across a switch to a
  shorter story they are not: see Findings.

Two observations about the code as it stands:

- `isPlaying` starts as `mode === "listen"` while the mode is still unset,
  and nothing that is called sets it to true: `loadAudio` and
  `onPlaybackStatusUpdate` both could, but no code calls either.
  The listen-mode page sync is therefore modelled, but no reachable state
  triggers it;
- in the AI path of the wizard, the title and author inputs are not shown.
  "Next Step" from details is then enabled only if a title and an author
  were typed earlier under another method.

## Model

| member | source | states |
|---|---|---|
| StoryReader.FindStoryIndex | src/screens/StoryPageScreen.tsx:63 | the index of the first story whose id equals `bookId`, or -1 exactly when no story has that id |
| StoryReader.FindStory | src/screens/StoryPageScreen.tsx:63 | the first story with that id; none exactly when no story matches |
| StoryReader.OpenReader | src/screens/StoryPageScreen.tsx:63-71 | an unknown id gives the terminal not-found screen with no session; a known id opens the first story with that id, in a fresh session on page 0 at second 0 of a zero-length track, with no mode and not playing, valid for a story with pages |
| StoryReader.FirstAndLastOnlyForOnePage | src/screens/StoryPageScreen.tsx:121-122 | on a valid session, "first page" and "last page" hold together exactly for a one-page story |
| StoryReader.ChangeBook | src/screens/StoryPageScreen.tsx:89-91 | a different `bookId` clears the mode and resets the page index to 0, leaving position and duration; the same id changes nothing |
| StoryReader.ChangeBookKeepsValid | src/screens/StoryPageScreen.tsx:89-91 | once the reset effects have run after a switch to another book, the session is valid for the new story, whatever its page count, because the index is back on page 0 |
| StoryReader.RenderView | src/screens/StoryPageScreen.tsx:327-377 | a render shows the choice view exactly when no mode is set, and throws exactly when a mode is set and the page index lies outside the story; otherwise it shows the page at the index |
| StoryReader.ValidSessionRenders | src/screens/StoryPageScreen.tsx:120-122 | a session valid for the story never makes the render throw |
| StoryReader.SwitchBookAsWritten | src/screens/StoryPageScreen.tsx:53-91 | navigating the mounted screen to another story crashes exactly when a mode is set and the old page index lies outside the new story; otherwise the reset of `ChangeBook` follows |
| StoryReader.SwitchBook | src/screens/StoryPageScreen.tsx:89-91 | with the reset in effect before the new story is shown, a switch never crashes, lands on the choice view of another story, and leaves a session valid for it |
| StoryReader.SwitchToShorterStoryThrows | src/screens/StoryPageScreen.tsx:120 | reading the sixth page of an eight-page story and opening a five-page story crashes as written, and shows the choice view as intended |
| StoryReader.StaleSwipeCountThrows | src/screens/StoryPageScreen.tsx:250-262 | on the last of five pages, a left swipe judged against a stale count of eight moves to a page the render cannot draw; judged against five it changes nothing |
| StoryReader.SwipeNeverThrows | src/screens/StoryPageScreen.tsx:254-264 | with the story's own page count, a swipe keeps the session valid and the next render draws a page |
| StoryReader.ChooseMode | src/screens/StoryPageScreen.tsx:327-351 | choosing read or listen on the choice view sets the mode and resets the page index to 0; with a mode set nothing changes |
| StoryReader.SwipeTarget | src/screens/StoryPageScreen.tsx:255-264 | `dx < -50` off the last page asks for the next page, `dx > 50` off the first page asks for the previous one, anything in `[-50, 50]` asks for nothing, and any target of an in-range index is in range |
| StoryReader.SwipePage | src/screens/StoryPageScreen.tsx:254-265 | a swipe changes only the page index, and on the reader view it moves to the swipe target whenever there is one; on the choice view, in the dead zone and past either end it changes nothing |
| StoryReader.PageForPosition | src/screens/StoryPageScreen.tsx:143-153 | the first page whose timestamp interval (last page unbounded) contains the position, or -1 exactly when no page's interval does |
| StoryReader.AtMostOnePageCovers | src/screens/StoryPageScreen.tsx:143-153 | on a non-decreasing timeline no two pages contain the same second |
| StoryReader.SomePageCovers | src/screens/StoryPageScreen.tsx:143-153 | on a non-decreasing timeline every second from the first timestamp on lies in some page's interval |
| StoryReader.PageFoundIffStarted | src/screens/StoryPageScreen.tsx:143-153 | on a non-decreasing timeline the lookup gives -1 exactly before the first timestamp, and otherwise the only page containing the position |
| StoryReader.SyncTarget | src/screens/StoryPageScreen.tsx:155-157 | a page change is requested exactly for the page the timeline lookup finds, when it is found and differs from the current one, and it contains the position |
| StoryReader.SyncIdleIff | src/screens/StoryPageScreen.tsx:143-157 | on a non-decreasing timeline the sync stays idle exactly when playback is before the first timestamp or already on the current page |
| StoryReader.SyncPage | src/screens/StoryPageScreen.tsx:139-162 | the sync interval changes only the page index, only while listening and playing, and only to the sync target, a page containing the position; while listening and playing it moves to every found page that differs from the current one |
| StoryReader.RewindPosition | src/screens/StoryPageScreen.tsx:459 | rewinding gives `max(0, pos - 10)`: never negative, never more than ten seconds back |
| StoryReader.ForwardPosition | src/screens/StoryPageScreen.tsx:476-479 | fast-forwarding gives `min(duration, pos + 10)`: never past the duration, never more than ten seconds on |
| StoryReader.SeekStaysInRange | src/screens/StoryPageScreen.tsx:458-483 | from a position in `[0, duration]` both seek buttons stay in `[0, duration]`, each moving by at most ten seconds in its own direction |
| StoryReader.Rewind | src/screens/StoryPageScreen.tsx:455-463 | the rewind button moves the position only in listen mode |
| StoryReader.FastForward | src/screens/StoryPageScreen.tsx:472-483 | the fast-forward button moves the position only in listen mode |
| StoryReader.Tick | src/screens/StoryPageScreen.tsx:183-191 | a tick keeps running exactly when `prev + 1 < duration`, moving one second; otherwise it returns the duration and stops; it never passes the duration |
| StoryReader.PlayReachesEnd | src/screens/StoryPageScreen.tsx:182-192 | from a position before the end, `k` ticks give `min(position + k, duration)`, still playing exactly while that is before the end |
| StoryReader.StartListening | src/screens/StoryPageScreen.tsx:176-179 | starting the simulated audio sets playing and the 90-second duration and nothing else |
| StoryReader.TickReader | src/screens/StoryPageScreen.tsx:183-191 | a tick of a playing session moves the position as `Tick` does against the session's duration and stops playing at the end; a paused session is unchanged |
| StoryReader.TickAsWritten | src/screens/StoryPageScreen.tsx:183-189 | a tick of the ticker `loadAudio` arms advances one second while the next second is still below the duration its closure captured, otherwise pins the position to that captured duration and stops; nothing else changes |
| StoryReader.StaleDurationStopsPlayback | src/screens/StoryPageScreen.tsx:179-188 | from a freshly opened listen session the ticker as written stops at second 0 on its first tick, while the intended one moves to second 1 and plays on |
| StoryReader.FormatTime | src/screens/StoryPageScreen.tsx:321-325 | the clock text is digits, a colon, then a two-digit seconds field that starts with '0' exactly when the seconds are below 10; the minutes carry no leading zero, so a clock starting with '0' is `0:ss` |
| StoryReader.FormatTimeRoundTrip | src/screens/StoryPageScreen.tsx:321-325 | reading the clock text back as minutes times 60 plus seconds (below 60) gives the original second |
| StoryReader.StepPreservesValid | src/screens/StoryPageScreen.tsx:119-122 | every input keeps the page index on a page of the story and the position within `[0, duration]` |
| StoryReader.RunPreservesValid | src/screens/StoryPageScreen.tsx:119-122 | any sequence of inputs keeps the session valid, so the current page always exists |
| StoryReader.ExampleTimeline | src/screens/StoryPageScreen.tsx:143-153 | with timestamps 0, 30, 60 the seconds 29, 30, 89 map to pages 0, 1, 2, and the tick at 89 of 90 stops at 90 |
| Decimal.NatToString | src/screens/CreateStoryScreen.tsx:118 | `n.toString()` is a non-empty digit string, one digit exactly for `n < 10`, with no leading zero |
| Decimal.ParseNatToString | src/screens/CreateStoryScreen.tsx:118 | reading the decimal text of `n` back gives `n` |
| Decimal.NatToStringInjective | src/screens/CreateStoryScreen.tsx:118 | different numbers get different decimal texts |
| Decimal.IntToString | src/screens/HomeScreen.tsx:66 | `num.toString()` starts with '-' exactly for negatives, and its digits carry no leading zero unless the number is 0 |
| Decimal.ParseIntToString | src/screens/HomeScreen.tsx:66 | the signed decimal text of `n` reads back as `n` |
| CreateStory.CountIdUnique | src/screens/CreateStoryScreen.tsx:133 | with unique ids, an id names one page if present and none otherwise |
| CreateStory.AddNewPage | src/screens/CreateStoryScreen.tsx:116-123 | adding appends one empty page whose id is the decimal text of `length + 1` (reading back as that number), leaving earlier pages as they were |
| CreateStory.UpdatePageText | src/screens/CreateStoryScreen.tsx:125-129 | editing keeps length, order, ids and pictures, and sets the text of exactly the pages named `id` |
| CreateStory.WithoutId | src/screens/CreateStoryScreen.tsx:133 | the filter keeps exactly the pages not named `id`, in their original order, shrinking by the number of pages with that id |
| CreateStory.WithoutIdKeepsUnique | src/screens/CreateStoryScreen.tsx:133 | filtering a list with unique ids leaves unique ids |
| CreateStory.WithoutAbsentId | src/screens/CreateStoryScreen.tsx:133 | filtering out an id no page carries returns the list unchanged |
| CreateStory.DeletePage | src/screens/CreateStoryScreen.tsx:131-137 | a one-page list is left alone; a longer one loses exactly the pages named `id` and keeps the rest in order; an absent id changes nothing |
| CreateStory.DeleteUniqueRemovesOne | src/screens/CreateStoryScreen.tsx:131-137 | with unique ids, deleting a present page from two or more removes exactly one page and leaves at least one |
| CreateStory.DuplicateIdEmptiesDraft | src/screens/CreateStoryScreen.tsx:116-137 | as written, add, delete "1", add yields the ids `["2","2"]`, and deleting "2" then empties the draft |
| CreateStory.CanSave | src/screens/CreateStoryScreen.tsx:450 | "Save Story" is enabled exactly when every page has non-empty text |
| CreateStory.BlankPageBlocksSave | src/screens/CreateStoryScreen.tsx:116-129 | after adding a page, or blanking an existing page's text, saving is disabled |
| CreateStory.InitialDraftWellFormed | src/screens/CreateStoryScreen.tsx:112-114 | the initial draft (one empty page "1") is well formed and cannot be saved yet |
| CreateStory.AddPage | src/screens/CreateStoryScreen.tsx:116-123 | the corrected add appends one empty page whose id no page carries yet, keeping the draft well formed |
| CreateStory.EditPage | src/screens/CreateStoryScreen.tsx:125-129 | editing a page's text keeps the draft well formed |
| CreateStory.RemovePage | src/screens/CreateStoryScreen.tsx:131-137 | deleting keeps the draft well formed (never empty, unique ids), removing exactly one page when the id is present and two or more remain |
| CreateStory.PickMethod | src/screens/CreateStoryScreen.tsx:248-299 | a method card sets the creation method, on the method step only |
| CreateStory.NextStep | src/screens/CreateStoryScreen.tsx:302-394 | "Next Step" goes from method to details exactly when a method is chosen, and from details to content exactly when title and author are non-empty, changing only the step; otherwise, and from the content step, it does nothing, so a disabled button never moves |
| CreateStory.BackStep | src/screens/CreateStoryScreen.tsx:378-445 | "Back" goes from content to details and from details to method, changing only the step |
| CreateStory.GenerateStory | src/screens/CreateStoryScreen.tsx:147-167 | generating moves to content exactly on the AI details step with a non-blank prompt and enough coins; otherwise nothing changes |
| CreateStory.GenerationAlwaysAffordable | src/screens/CreateStoryScreen.tsx:69-70 | with the balance 100 and price 50, a non-blank prompt always generates |
| CreateStory.BlankPromptNeverGenerates | src/screens/CreateStoryScreen.tsx:231-239 | a prompt that trims to nothing never generates |
| CreateStory.BackUndoesNext | src/screens/CreateStoryScreen.tsx:378-394 | "Back" undoes any "Next Step" that moved |
| CreateStory.NextUndoesBack | src/screens/CreateStoryScreen.tsx:378-394 | on a reachable details step, "Back" then "Next Step" returns to the same state |
| CreateStory.ApplyPreservesInvariant | src/screens/CreateStoryScreen.tsx:458-465 | every wizard input keeps the method chosen past the first step, the content step guarded, and the draft well formed |
| CreateStory.ApplyAllPreservesInvariant | src/screens/CreateStoryScreen.tsx:458-465 | any sequence of inputs keeps the wizard invariant |
| CreateStory.ReachableWizardsAreWellFormed | src/screens/CreateStoryScreen.tsx:99-137 | every state reachable from the initial wizard has a non-empty draft with unique ids |
| Home.FormatNumber | src/screens/HomeScreen.tsx:59-67 | "M" exactly from one million, "K" exactly from one thousand below a million, the number's own decimal text otherwise (exactly `IntToString`, which reads back as the number); the amount times the suffix's scale is the number |
| Home.FractionalPart | src/screens/HomeScreen.tsx:94 | `rating % 1` lies strictly between -1 and 1, is the fraction above the floor for non-negative ratings, and is never positive for negative ones |
| Home.StarIcons | src/screens/HomeScreen.tsx:91-111 | five icons; position `i` is full exactly when `i < floor(rating)`, and half exactly at `floor(rating)` when `rating % 1 >= 0.5` |
| Home.StarLayout | src/screens/HomeScreen.tsx:91-111 | the icons are `min(5, floor)` full stars, at most one half star, then empty stars; a negative rating gives five empty stars |
| Home.Toggle | src/screens/HomeScreen.tsx:299-304 | toggling flips the flag of `id` (an absent key reads as false; see "Left out" for inherited object members) and leaves every other key and value as it was |
| Home.ToggleTwice | src/screens/HomeScreen.tsx:299-311 | toggling twice restores every observed flag, and the map itself when the key was present |
| Home.ToggleFavorite | src/screens/HomeScreen.tsx:299-304 | the favourite flag of `id` flips, other favourites, saved flags and stories stay |
| Home.ToggleSave | src/screens/HomeScreen.tsx:306-311 | the saved flag of `id` flips, other saved flags, favourites and stories stay |
| Home.SavedStories | src/screens/HomeScreen.tsx:357 | the saved list holds exactly the stories whose saved flag is set, every copy of each, as a subsequence of the stories in their order |
| Home.ToggleSaveMovesStory | src/screens/HomeScreen.tsx:306-311 | after toggling a story's saved flag it is on the saved list exactly when it was not saved before |
| Home.PressOpen | src/screens/HomeScreen.tsx:291-296 | opening a book navigates to the story page with that book's id and mode "open" |
| Home.OpenedBookIsFound | src/screens/HomeScreen.tsx:291-296 | a book opened from the list is always found by the reader; on the screen's first mount it starts on the mode choice at page 0 (later opens of the mounted screen go through `ChangeBook` and `SwitchBookAsWritten`); with unique ids it is that book |
| Auth.Login | src/context/AuthContext.tsx:36-44 | login succeeds exactly for non-empty email and password, signing in as a parent without a display name; otherwise it fails with "Invalid credentials" and the user stays |
| Auth.Register | src/context/AuthContext.tsx:48-56 | register always succeeds and signs in with the given email, role and display name |
| Auth.Logout | src/context/AuthContext.tsx:46 | logout leaves nobody signed in |
| Auth.SessionTransitions | src/context/AuthContext.tsx:36-56 | login and register do not depend on who was signed in, register ignores the password, a failed login changes nothing, and logout after either signs out |
| Auth.RegisterAcceptsEmptyCredentials | src/context/AuthContext.tsx:39-56 | empty credentials are refused by login and accepted by register |

## Findings

| source | as written | input that shows it | evidently intended | confidence | as-written member | corrected member |
|---|---|---|---|---|---|---|
| src/screens/CreateStoryScreen.tsx:118 | a new page is named `pages.length + 1`, which after a deletion can be an id already in use; `deletePage` checks the length before filtering, so one delete can then remove two pages | from the initial draft: add, delete "1", add (ids `["2","2"]`), delete "2" gives an empty draft | page ids stay unique, and the "at least one page" rule holds | high; not executed | CreateStory.DuplicateIdEmptiesDraft | CreateStory.AddPage |
| src/screens/StoryPageScreen.tsx:53-91 | the screen stays mounted in the drawer, so a new `bookId` is first rendered with the previous mode and page index; the reset effects run after that render, and `storyData.pages[currentPageIndex]` can be `undefined` there | read the sixth page of an eight-page story, go back, open a five-page story: `currentPage.imageUrl` throws at line 377 | a switch shows the new story's choice view on page 0 | medium; not executed | StoryReader.SwitchToShorterStoryThrows | StoryReader.SwitchBook |
| src/screens/StoryPageScreen.tsx:250-262 | the pan handler is created once, so it keeps the page count of the first story it saw | after a switch from an eight-page story to a five-page one, read to page five and swipe left: the index becomes 5 and the next render throws | swipes stay within the current story | medium; not executed | StoryReader.StaleSwipeCountThrows | StoryReader.SwipeNeverThrows |
| src/screens/StoryPageScreen.tsx:185 | the simulated ticker compares with `playbackDuration` as captured by the render that created `loadAudio`, which is 0, not the 90 set just before | call `loadAudio` on a freshly opened listen session: the first tick returns 0 and stops playback | the ticker runs to the 90-second duration | low, `loadAudio` has no caller; not executed | StoryReader.StaleDurationStopsPlayback | StoryReader.TickReader |

The corrected draft (`CreateStory.Draft`) takes page ids from a counter that
only grows. The wizard uses it, and `ReachableWizardsAreWellFormed` proves its
draft never empties and never repeats an id. The session model
(`StoryReader.Step`) uses the intended ticker, `TickReader`. It follows one
story's session; across a switch of stories, `SwitchBook` and
`SwipeNeverThrows` state the intended behaviour that the two reader rows above
break.

## Left out

- Rendering beyond which view a render shows and whether it throws, styles, and every `Animated.timing`/`spring` value. A page change is `pageIndex := target` with no fade state.
- The header auto-hide and re-show timers. They change only opacity.
- The draggable text overlay. It always springs back and changes no state.
- `onPlaybackStatusUpdate` and the real audio backend. Both are unused, and the millisecond-to-second division is floating point.
- The progress-bar ratio. It is floating point.
- The timers of the ticker and the sync interval. Each run of them is one `Step` event.
- The 500 ms delays in `AuthContext` and the `useAuth` provider guard. Login, register and logout are synchronous here.
- Template choice, the prompt-guide dialog, and the target-age field of the wizard. They do not affect the step guards or the pages.
- The "Story Saved!" alert. Saving changes no state; only its enable rule is modelled.
- CreateStory.GenerateStory: the "Insufficient Coins" alert (CreateStoryScreen.tsx:149-152) is not modelled; it changes no state. The "Story Generated!" alert is not modelled either. In the source the step moves only when the user presses OK on it (157-166), and the model counts generate-then-OK as a single input.
- CreateStory.DeletePage: the "Cannot Delete" alert (CreateStoryScreen.tsx:135) is not modelled; the refused delete leaves the pages unchanged.
- Home.Toggle: ids are arbitrary strings, but the source's flag maps are plain JavaScript objects (HomeScreen.tsx:279-280). An id that names an `Object.prototype` member (`"constructor"`, `"toString"`, `"valueOf"`) reads the inherited function, which is truthy, where the model reads false. That story shows as favourited and sits on the saved list before any toggle, and its first toggle stores `false`. This affects `ToggleFavorite`, `ToggleSave` and `SavedStories`.
- The sign-in, sign-up and forgot-password screens, and the library, profile, settings, drawer, header, carousel and card components. They are static UI and navigator wiring.
- The story collection itself. It is a parameter, and a non-decreasing timeline is a stated precondition where the lemmas need it.
- StoryReader.SwipePage: uses the current story's page count. The screen's pan handler is built once and keeps the page count of the first story it saw; `StaleSwipeCountThrows` shows where that leads (see Findings).
- StoryReader.ChangeBook: is the state after the reset effects. As written the first render for the new book comes before them and can throw; `SwitchBookAsWritten` models that render.
- StoryReader.PageForPosition: positions and timestamps are whole seconds. The source's numbers could be fractional.
- StoryReader.SwipeTarget: the drag distance `dx` is a whole number of pixels.
- StoryReader.FormatTime: takes whole non-negative seconds. `Math.floor` of fractional seconds is not modelled.
- Home.FormatNumber: the amount is the exact quotient. `toFixed(1)` rounding is not modelled, so "1000.0K" for 999 950 and up does not appear.
- StoryReader.OpenReader: a story with no pages opens a session like any other. The source then has no current page (StoryPageScreen.tsx:120) and throws at `currentPage.imageUrl` once a mode is chosen (377). The model assumes every story has at least one page: `Valid` requires it, so the crash is not represented. The not-found view is terminal only for the render that shows it: the drawer's own "StoryPage" entry starts with `bookId` `""` (App.tsx:49-53), and that render returns after three hooks (StoryPageScreen.tsx:65-71). Opening a book later on the same mounted screen calls more hooks, which React rejects with an error; switching from a found story to an unknown id calls fewer, with the same result. Neither hook-order error is modelled.
- Decimal.NatToString: writes every whole number in plain digits. JavaScript switches to exponent form (`"1e+21"`) from 10^21, which no count, page number or clock in the app reaches.
- Home.StarIcons: the rating is an exact real. Floating-point representation and NaN are not modelled.

=== FILE: auth.dfy ===
/** The mock authentication provider (`AuthContext`): who is signed in, and
    the login, register and logout transitions. The 500 ms delays are left
    out, so each transition is a single synchronous step. */
module Auth {
  import opened Wrappers

  datatype Role = Parent | Teacher | Child

  datatype User = User(email: string, role: Role, displayName: Option<string>)

  /** The provider's `user` state; `None` is `null`. */
  type Session = Option<User>

  const InitialSession: Session := None

  const InvalidCredentials: string := "Invalid credentials"

  /** The state after a call, and the message of the error it threw, if any. */
  datatype Outcome = Outcome(user: Session, error: Option<string>)

  /** `login`: non-empty email and password sign in as a parent; otherwise it
      throws "Invalid credentials" and the state stays as it was. */
  function Login(user: Session, email: string, password: string): (r: Outcome)
    ensures r.error.None? <==> email != "" && password != ""
    ensures r.error.None? ==> r.user == Some(User(email, Parent, None))
    ensures r.error.Some? ==> r.user == user && r.error.value == InvalidCredentials
  {
    if email != "" && password != "" then Outcome(Some(User(email, Parent, None)), None)
    else Outcome(user, Some(InvalidCredentials))
  }

  /** `register`: no check at all; the password is ignored. */
  function Register(user: Session, email: string, password: string, role: Role, displayName: Option<string>): (r: Outcome)
    ensures r.error.None?
    ensures r.user == Some(User(email, role, displayName))
  {
    Outcome(Some(User(email, role, displayName)), None)
  }

  /** `logout`. */
  function Logout(user: Session): (r: Session)
    ensures r.None?
  {
    None
  }

  /** Login and register forget whoever was signed in before; a failed login
      changes nothing; logout undoes either. */
  lemma SessionTransitions(user: Session, other: Session, email: string, password: string, role: Role, name: Option<string>)
    ensures Login(user, email, password).error.None? ==>
      Login(user, email, password).user == Login(other, email, password).user
    ensures Login(user, email, password).error.Some? ==> Login(user, email, password).user == user
    ensures Register(user, email, password, role, name).user == Register(other, email, "", role, name).user
    ensures Logout(Login(user, email, password).user) == InitialSession
    ensures Logout(Register(user, email, password, role, name).user) == InitialSession
  {
  }

  /** Register accepts exactly what login would refuse: an empty email or password. */
  lemma RegisterAcceptsEmptyCredentials(user: Session, role: Role)
    ensures Login(user, "", "").error == Some(InvalidCredentials)
    ensures Register(user, "", "", role, None).user == Some(User("", role, None))
  {
  }
}

=== FILE: content.dfy ===
/** The records of the bundled story collection (`data/data.json`), as the
    home screen and the reader read them. The collection itself is not part of
    this model: every operation takes it as a parameter. */
module Content {
  import opened Wrappers

  /** One page: its 1-based number, picture, text, and the second of the
      story's audio at which the page becomes current in listen mode. */
  datatype Page = Page(
    pageNumber: int,
    imageUrl: string,
    text: string,
    audioTimestamp: int,
    audioUrl: Option<string>)

  datatype Story = Story(
    id: string,
    title: string,
    coverImage: string,
    author: string,
    description: string,
    rating: real,
    readCount: int,  // the fixture's `reads` field (`reads` is a Dafny keyword)
    duration: string,
    ageRange: string,
    audioUrl: Option<string>,
    pages: seq<Page>,
    likes: int,
    categories: seq<string>)

  /** The listen-mode timeline is usable: page timestamps never decrease. */
  predicate TimestampsNonDecreasing(pages: seq<Page>) {
    forall i, j :: 0 <= i <= j < |pages| ==> pages[i].audioTimestamp <= pages[j].audioTimestamp
  }
}

=== FILE: create_story.dfy ===
/** The story-creation wizard (`CreateStoryScreen`): the page list of the draft
    with its add / edit / delete buttons, the "Save Story" enable rule, and the
    three steps `method -> details -> content` with their guards.

    The page operations are modelled twice. `AddNewPage` is the screen's code,
    which names the new page after the list length; after a deletion that name
    can already be taken, and `DuplicateIdEmptiesDraft` shows the list then
    emptied by a single delete. `Draft` is the corrected page list, which names
    pages from a counter and keeps ids unique and the list non-empty; the wizard
    uses it. */
module CreateStory {
  import opened Wrappers
  import opened Decimal
  import opened Sequences

  // ---------------------------------------------------------------------------
  // Draft pages
  // ---------------------------------------------------------------------------

  datatype DraftPage = DraftPage(id: string, text: string, imageUri: string)

  const PlaceholderImage: string := "https://picsum.photos/400/300"

  /** The single empty page a new draft starts with. */
  const InitialPages: seq<DraftPage> := [DraftPage("1", "", PlaceholderImage)]

  predicate UniqueIds(pages: seq<DraftPage>) {
    forall i, j :: 0 <= i < j < |pages| ==> pages[i].id != pages[j].id
  }

  predicate HasId(pages: seq<DraftPage>, id: string) {
    exists i :: 0 <= i < |pages| && pages[i].id == id
  }

  /** How many pages carry `id`. */
  function CountId(pages: seq<DraftPage>, id: string): nat
    decreases |pages|
  {
    if |pages| == 0 then 0
    else (if pages[0].id == id then 1 else 0) + CountId(pages[1..], id)
  }

  /** With unique ids an id names at most one page. */
  lemma {:induction false} CountIdUnique(pages: seq<DraftPage>, id: string)
    requires UniqueIds(pages)
    ensures CountId(pages, id) == if HasId(pages, id) then 1 else 0
    decreases |pages|
  {
    if |pages| > 0 {
      var rest := pages[1..];
      assert UniqueIds(rest) by {
        forall i, j | 0 <= i < j < |rest| ensures rest[i].id != rest[j].id {
          assert rest[i] == pages[i + 1] && rest[j] == pages[j + 1];
        }
      }
      CountIdUnique(rest, id);
      if pages[0].id == id {
        assert !HasId(rest, id) by {
          forall i | 0 <= i < |rest| ensures rest[i].id != id {
            assert rest[i] == pages[i + 1];
          }
        }
      } else {
        if HasId(pages, id) {
          var i :| 0 <= i < |pages| && pages[i].id == id;
          assert rest[i - 1].id == id;
        }
        if HasId(rest, id) {
          var i :| 0 <= i < |rest| && rest[i].id == id;
          assert pages[i + 1].id == id;
        }
      }
    }
  }

  /** `addNewPage` as written: an empty page named `(pages.length + 1).toString()`. */
  function AddNewPage(pages: seq<DraftPage>): (r: seq<DraftPage>)
    ensures |r| == |pages| + 1 && r[..|pages|] == pages
    ensures r[|pages|].text == ""
    ensures AllDigits(r[|pages|].id) && ParseNat(r[|pages|].id) == |pages| + 1
    ensures r[|pages|].id == NatToString(|pages| + 1)
  {
    ParseNatToString(|pages| + 1);
    pages + [EmptyPage(NatToString(|pages| + 1), |pages| + 1)]
  }

  /** An empty page with the placeholder picture the screen gives the `n`-th page. */
  function EmptyPage(id: string, n: nat): DraftPage {
    DraftPage(id, "", PlaceholderImage + "?random=" + NatToString(n))
  }

  /** `updatePageText`: the text of every page named `id` becomes `newText`. */
  function UpdatePageText(pages: seq<DraftPage>, id: string, newText: string): (r: seq<DraftPage>)
    ensures |r| == |pages|
    ensures forall i :: 0 <= i < |pages| ==> r[i].id == pages[i].id && r[i].imageUri == pages[i].imageUri
    ensures forall i :: 0 <= i < |pages| ==> r[i].text == (if pages[i].id == id then newText else pages[i].text)
    ensures !HasId(pages, id) ==> r == pages
  {
    seq(|pages|, i requires 0 <= i < |pages| =>
      if pages[i].id == id then pages[i].(text := newText) else pages[i])
  }

  /** `pages.filter(page => page.id !== id)`. */
  function WithoutId(pages: seq<DraftPage>, id: string): (r: seq<DraftPage>)
    ensures forall p :: p in r <==> p in pages && p.id != id
    ensures |r| == |pages| - CountId(pages, id)
    ensures IsSubsequence(r, pages)
    decreases |pages|
  {
    if |pages| == 0 then SubsequenceEmpty(pages); []
    else
      var rest := WithoutId(pages[1..], id);
      assert pages == [pages[0]] + pages[1..];
      if pages[0].id == id then
        SubsequenceSkip(pages[0], rest, pages[1..]);
        rest
      else
        SubsequenceKeep(pages[0], rest, pages[1..]);
        [pages[0]] + rest
  }

  /** Filtering keeps ids unique: the kept pages sit at increasing, hence
      distinct, positions of the original list. */
  lemma WithoutIdKeepsUnique(pages: seq<DraftPage>, id: string)
    requires UniqueIds(pages)
    ensures UniqueIds(WithoutId(pages, id))
  {
    var r := WithoutId(pages, id);
    var idx :| IsEmbedding(idx, r, pages);
    forall i, j | 0 <= i < j < |r| ensures r[i].id != r[j].id {
      assert r[i] == pages[idx[i]] && r[j] == pages[idx[j]] && idx[i] < idx[j];
    }
  }

  /** Filtering out an id no page carries changes nothing. */
  lemma {:induction false} WithoutAbsentId(pages: seq<DraftPage>, id: string)
    requires !HasId(pages, id)
    ensures WithoutId(pages, id) == pages
    decreases |pages|
  {
    if |pages| > 0 {
      assert !HasId(pages[1..], id) by {
        forall i | 0 <= i < |pages[1..]| ensures pages[1..][i].id != id {
          assert pages[1..][i] == pages[i + 1];
        }
      }
      WithoutAbsentId(pages[1..], id);
      assert pages[0].id != id;
      assert [pages[0]] + pages[1..] == pages;
    }
  }

  /** `deletePage`: a one-page list is refused; otherwise every page named `id`
      is filtered out. The guard looks at the length before filtering. */
  function DeletePage(pages: seq<DraftPage>, id: string): (r: seq<DraftPage>)
    ensures |pages| <= 1 ==> r == pages
    ensures |pages| > 1 ==> forall p :: p in r <==> p in pages && p.id != id
    ensures |pages| > 1 ==> |r| == |pages| - CountId(pages, id)
    ensures |pages| > 1 ==> IsSubsequence(r, pages)
    ensures UniqueIds(pages) ==> UniqueIds(r)
    ensures !HasId(pages, id) ==> r == pages
  {
    if |pages| > 1 then
      assert UniqueIds(pages) ==> UniqueIds(WithoutId(pages, id)) by {
        if UniqueIds(pages) {
          WithoutIdKeepsUnique(pages, id);
        }
      }
      assert !HasId(pages, id) ==> WithoutId(pages, id) == pages by {
        if !HasId(pages, id) {
          WithoutAbsentId(pages, id);
        }
      }
      WithoutId(pages, id)
    else pages
  }

  /** With unique ids, deleting a page that exists from a list of two or more
      removes exactly that page and leaves at least one. */
  lemma DeleteUniqueRemovesOne(pages: seq<DraftPage>, id: string)
    requires UniqueIds(pages) && |pages| > 1 && HasId(pages, id)
    ensures |DeletePage(pages, id)| == |pages| - 1
    ensures |DeletePage(pages, id)| >= 1
    ensures !HasId(DeletePage(pages, id), id)
  {
    CountIdUnique(pages, id);
    var r := DeletePage(pages, id);
    forall i | 0 <= i < |r| ensures r[i].id != id {
      assert r[i] in r;
    }
  }

  /** As written, ids stop being unique after delete-then-add, and one delete
      then empties the draft: `[1]`, add `[1,2]`, delete 1 `[2]`, add `[2,2]`,
      delete 2 `[]`. */
  lemma DuplicateIdEmptiesDraft()
    ensures var p1 := AddNewPage(InitialPages);
      var p2 := DeletePage(p1, "1");
      var p3 := AddNewPage(p2);
      && UniqueIds(p1) && UniqueIds(p2) && !UniqueIds(p3)
      && |p3| == 2 && p3[0].id == "2" && p3[1].id == "2"
      && DeletePage(p3, "2") == []
  {
    var p1 := AddNewPage(InitialPages);
    assert NatToString(2) == "2";
    assert p1[0].id == "1" && p1[1].id == "2";
    var p2 := DeletePage(p1, "1");
    assert p2 == [p1[1]] by {
      assert p1[1..][1..] == [];
      assert WithoutId(p1[1..][1..], "1") == [];
      assert WithoutId(p1[1..], "1") == [p1[1]];
    }
    var p3 := AddNewPage(p2);
    assert p3[0].id == "2" && p3[1].id == "2";
    assert WithoutId(p3[1..][1..], "2") == [];
    assert WithoutId(p3[1..], "2") == [];
  }

  /** "Save Story" is enabled: `!pages.some(page => !page.text)`. */
  function CanSave(pages: seq<DraftPage>): (b: bool)
    ensures b <==> forall i :: 0 <= i < |pages| ==> pages[i].text != ""
    decreases |pages|
  {
    |pages| == 0 || (pages[0].text != "" && CanSave(pages[1..]))
  }

  /** Adding a page, or blanking the text of an existing one, disables saving. */
  lemma BlankPageBlocksSave(pages: seq<DraftPage>, id: string)
    ensures !CanSave(AddNewPage(pages))
    ensures HasId(pages, id) ==> !CanSave(UpdatePageText(pages, id, ""))
  {
    var added := AddNewPage(pages);
    assert added[|pages|].text == "";
    if HasId(pages, id) {
      var i :| 0 <= i < |pages| && pages[i].id == id;
      assert UpdatePageText(pages, id, "")[i].text == "";
    }
  }

  // ---------------------------------------------------------------------------
  // The corrected draft: page ids drawn from a counter
  // ---------------------------------------------------------------------------

  /** The page list together with the next unused page number. */
  datatype Draft = Draft(pages: seq<DraftPage>, nextId: nat)

  const InitialDraft: Draft := Draft(InitialPages, 2)

  /** At least one page, unique ids, and every id a number below `nextId`. */
  ghost predicate DraftInvariant(d: Draft) {
    && |d.pages| >= 1
    && UniqueIds(d.pages)
    && forall i :: 0 <= i < |d.pages| ==> AllDigits(d.pages[i].id) && ParseNat(d.pages[i].id) < d.nextId
  }

  lemma InitialDraftWellFormed()
    ensures DraftInvariant(InitialDraft)
    ensures !CanSave(InitialDraft.pages)
  {
    assert InitialDraft.pages[0].text == "";
    assert ParseNat("1") == 1 by {
      assert "1"[..0] == [];
    }
  }

  /** Add a page named by the counter, which no page carries yet. */
  function AddPage(d: Draft): (r: Draft)
    ensures |r.pages| == |d.pages| + 1 && r.pages[..|d.pages|] == d.pages
    ensures r.pages[|d.pages|].text == ""
    ensures DraftInvariant(d) ==> !HasId(d.pages, r.pages[|d.pages|].id)
    ensures DraftInvariant(d) ==> DraftInvariant(r)
  {
    var id := NatToString(d.nextId);
    var r := Draft(d.pages + [EmptyPage(id, |d.pages| + 1)], d.nextId + 1);
    ParseNatToString(d.nextId);
    assert DraftInvariant(d) ==> !HasId(d.pages, id) by {
      if DraftInvariant(d) {
        forall i | 0 <= i < |d.pages| ensures d.pages[i].id != id {
          assert ParseNat(d.pages[i].id) < d.nextId;
        }
      }
    }
    assert DraftInvariant(d) ==> UniqueIds(r.pages) by {
      if DraftInvariant(d) {
        forall i, j | 0 <= i < j < |r.pages| ensures r.pages[i].id != r.pages[j].id {
          if j == |d.pages| {
            assert r.pages[i] == d.pages[i];
          } else {
            assert r.pages[i] == d.pages[i] && r.pages[j] == d.pages[j];
          }
        }
      }
    }
    r
  }

  /** Edit the text of the page named `id`; ids and pictures stay. */
  function EditPage(d: Draft, id: string, newText: string): (r: Draft)
    ensures r == d.(pages := UpdatePageText(d.pages, id, newText))
    ensures DraftInvariant(d) ==> DraftInvariant(r)
  {
    d.(pages := UpdatePageText(d.pages, id, newText))
  }

  /** Delete the page named `id` with the screen's own guard. */
  function RemovePage(d: Draft, id: string): (r: Draft)
    ensures r == d.(pages := DeletePage(d.pages, id))
    ensures DraftInvariant(d) ==> DraftInvariant(r)
    ensures DraftInvariant(d) && |d.pages| > 1 && HasId(d.pages, id) ==>
      |r.pages| == |d.pages| - 1 && !HasId(r.pages, id)
  {
    var r := d.(pages := DeletePage(d.pages, id));
    assert DraftInvariant(d) ==> DraftInvariant(r) by {
      if DraftInvariant(d) {
        if |d.pages| > 1 && HasId(d.pages, id) {
          DeleteUniqueRemovesOne(d.pages, id);
        }
        forall i | 0 <= i < |r.pages|
          ensures AllDigits(r.pages[i].id) && ParseNat(r.pages[i].id) < r.nextId
        {
          assert r.pages[i] in d.pages;
        }
      }
    }
    assert DraftInvariant(d) && |d.pages| > 1 && HasId(d.pages, id) ==>
      |r.pages| == |d.pages| - 1 && !HasId(r.pages, id) by {
      if DraftInvariant(d) && |d.pages| > 1 && HasId(d.pages, id) {
        DeleteUniqueRemovesOne(d.pages, id);
      }
    }
    r
  }

  // ---------------------------------------------------------------------------
  // The wizard
  // ---------------------------------------------------------------------------

  datatype Step = MethodStep | DetailsStep | ContentStep

  datatype CreationMethod = Ai | Template | Manual

  /** The wizard's state. Title and author inputs exist only on the details
      step of the template and manual methods, the prompt input only on the
      details step of the AI method. */
  datatype Wizard = Wizard(
    step: Step,
    creationMethod: Option<CreationMethod>,
    title: string,
    author: string,
    prompt: string,
    draft: Draft)

  const InitialWizard: Wizard := Wizard(MethodStep, None, "", "", "", InitialDraft)

  /** The story-generation price and the mock balance, in coins. */
  const PromptCost: int := 50
  const MockUserCoins: int := 100

  /** The characters `String.prototype.trim` removes: white space and line terminators. */
  predicate IsTrimmed(c: char) {
    || c == '\t' || c == '\n' || c == '\U{000B}' || c == '\U{000C}' || c == '\r' || c == ' '
    || c == '\U{00A0}' || c == '\U{1680}' || ('\U{2000}' <= c <= '\U{200A}')
    || c == '\U{2028}' || c == '\U{2029}' || c == '\U{202F}' || c == '\U{205F}'
    || c == '\U{3000}' || c == '\U{FEFF}'
  }

  /** `!s.trim()`: nothing is left once white space is trimmed. */
  predicate Blank(s: string) {
    forall i :: 0 <= i < |s| ==> IsTrimmed(s[i])
  }

  /** Choosing a method card, shown on the method step only. */
  function PickMethod(w: Wizard, m: CreationMethod): (r: Wizard)
    ensures w.step == MethodStep ==> r == w.(creationMethod := Some(m))
    ensures w.step != MethodStep ==> r == w
  {
    if w.step == MethodStep then w.(creationMethod := Some(m)) else w
  }

  /** "Next Step": from the method step once a method is chosen, from the
      details step once title and author are filled in. */
  function NextStep(w: Wizard): (r: Wizard)
    ensures r == w.(step := r.step)
    ensures w.step == MethodStep ==> (r.step == DetailsStep <==> w.creationMethod.Some?)
    ensures w.step == DetailsStep ==> (r.step == ContentStep <==> w.title != "" && w.author != "")
    ensures r.step == w.step ==> r == w
    ensures r.step == w.step || (w.step == MethodStep && r.step == DetailsStep)
                             || (w.step == DetailsStep && r.step == ContentStep)
    ensures w.step == ContentStep ==> r == w
  {
    match w.step
    case MethodStep => if w.creationMethod.Some? then w.(step := DetailsStep) else w
    case DetailsStep => if w.title != "" && w.author != "" then w.(step := ContentStep) else w
    case ContentStep => w
  }

  /** "Back": content to details, details to method. */
  function BackStep(w: Wizard): (r: Wizard)
    ensures r == w.(step := r.step)
    ensures w.step == ContentStep ==> r.step == DetailsStep
    ensures w.step == DetailsStep ==> r.step == MethodStep
    ensures w.step == MethodStep ==> r == w
  {
    match w.step
    case MethodStep => w
    case DetailsStep => w.(step := MethodStep)
    case ContentStep => w.(step := DetailsStep)
  }

  /** "Generate Story" on the AI details step: enabled only for a non-blank
      prompt; with too few coins an alert is shown and nothing changes.
      Otherwise a "Story Generated!" alert is shown, and the step moves to
      content when it is dismissed with OK; the two count as one input here. */
  function GenerateStory(w: Wizard, coins: int, cost: int): (r: Wizard)
    ensures r == w.(step := r.step)
    ensures r != w <==>
      w.step == DetailsStep && w.creationMethod == Some(Ai) && !Blank(w.prompt) && coins >= cost
    ensures r != w ==> r.step == ContentStep
  {
    if w.step == DetailsStep && w.creationMethod == Some(Ai) && !Blank(w.prompt) && coins >= cost
    then w.(step := ContentStep)
    else w
  }

  /** With the mock balance and price, a non-blank prompt always generates. */
  lemma GenerationAlwaysAffordable(w: Wizard)
    requires w.step == DetailsStep && w.creationMethod == Some(Ai) && !Blank(w.prompt)
    ensures GenerateStory(w, MockUserCoins, PromptCost).step == ContentStep
  {
  }

  /** A blank prompt never generates, whatever the balance. */
  lemma BlankPromptNeverGenerates(w: Wizard, coins: int, cost: int)
    requires Blank(w.prompt)
    ensures GenerateStory(w, coins, cost) == w
  {
  }

  /** "Back" undoes a "Next Step" that moved. */
  lemma BackUndoesNext(w: Wizard)
    requires NextStep(w) != w
    ensures BackStep(NextStep(w)) == w
  {
  }

  /** The wizard's state invariant: a method is chosen past the first step,
      the content step is reached only through one of its two guards, and the
      draft is well formed. */
  ghost predicate WizardInvariant(w: Wizard) {
    && DraftInvariant(w.draft)
    && (w.step != MethodStep ==> w.creationMethod.Some?)
    && (w.step == ContentStep ==>
          (w.title != "" && w.author != "") || (w.creationMethod == Some(Ai) && !Blank(w.prompt)))
  }

  /** From the details step, "Back" then "Next Step" returns to where it was. */
  lemma NextUndoesBack(w: Wizard)
    requires WizardInvariant(w) && w.step == DetailsStep
    ensures NextStep(BackStep(w)) == w
  {
  }

  /** The inputs of the wizard, each available only where the screen renders it. */
  datatype Input =
    | ChooseMethod(m: CreationMethod)
    | Next
    | Back
    | TypeTitle(s: string)
    | TypeAuthor(s: string)
    | TypePrompt(s: string)
    | Generate
    | AddPagePress
    | TypePageText(id: string, text: string)
    | DeletePress(id: string)

  function Apply(w: Wizard, input: Input): Wizard {
    match input
    case ChooseMethod(m) => PickMethod(w, m)
    case Next => NextStep(w)
    case Back => BackStep(w)
    case TypeTitle(s) =>
      if w.step == DetailsStep && w.creationMethod != Some(Ai) then w.(title := s) else w
    case TypeAuthor(s) =>
      if w.step == DetailsStep && w.creationMethod != Some(Ai) then w.(author := s) else w
    case TypePrompt(s) =>
      if w.step == DetailsStep && w.creationMethod == Some(Ai) then w.(prompt := s) else w
    case Generate => GenerateStory(w, MockUserCoins, PromptCost)
    case AddPagePress =>
      if w.step == ContentStep then w.(draft := AddPage(w.draft)) else w
    case TypePageText(id, text) =>
      if w.step == ContentStep then w.(draft := EditPage(w.draft, id, text)) else w
    case DeletePress(id) =>
      if w.step == ContentStep then w.(draft := RemovePage(w.draft, id)) else w
  }

  lemma ApplyPreservesInvariant(w: Wizard, input: Input)
    requires WizardInvariant(w)
    ensures WizardInvariant(Apply(w, input))
  {
  }

  function ApplyAll(w: Wizard, inputs: seq<Input>): Wizard
    decreases |inputs|
  {
    if |inputs| == 0 then w else ApplyAll(Apply(w, inputs[0]), inputs[1..])
  }

  /** Every reachable wizard state satisfies the invariant: in particular the
      draft never loses its last page and never repeats an id. */
  lemma {:induction false} ReachableWizardsAreWellFormed(inputs: seq<Input>)
    ensures WizardInvariant(ApplyAll(InitialWizard, inputs))
  {
    InitialDraftWellFormed();
    ApplyAllPreservesInvariant(InitialWizard, inputs);
  }

  lemma {:induction false} ApplyAllPreservesInvariant(w: Wizard, inputs: seq<Input>)
    requires WizardInvariant(w)
    ensures WizardInvariant(ApplyAll(w, inputs))
    decreases |inputs|
  {
    if |inputs| > 0 {
      ApplyPreservesInvariant(w, inputs[0]);
      ApplyAllPreservesInvariant(Apply(w, inputs[0]), inputs[1..]);
    }
  }
}

=== FILE: decimal.dfy ===
/** Decimal text for integers, as JavaScript's `Number.prototype.toString`
    writes it for whole numbers below 10^21 (larger ones switch to exponent
    form there), and the parser that reads it back. */
module Decimal {

  predicate IsDigit(c: char) {
    '0' <= c <= '9'
  }

  predicate AllDigits(s: string) {
    forall i :: 0 <= i < |s| ==> IsDigit(s[i])
  }

  function DigitChar(d: nat): (c: char)
    requires d < 10
    ensures IsDigit(c)
  {
    (('0' as int) + d) as char
  }

  function DigitValue(c: char): (d: nat)
    requires IsDigit(c)
    ensures d < 10
  {
    (c as int) - ('0' as int)
  }

  /** `n.toString()` for a non-negative whole number below 10^21: no sign, no
      leading zeros. Beyond that bound the digits here are still plain. */
  function NatToString(n: nat): (s: string)
    ensures 1 <= |s|
    ensures AllDigits(s)
    ensures |s| == 1 <==> n < 10
    ensures s[0] == '0' ==> n == 0
    decreases n
  {
    if n < 10 then [DigitChar(n)] else NatToString(n / 10) + [DigitChar(n % 10)]
  }

  /** `n.toString()` for a whole number of magnitude below 10^21: a leading
      '-' for negatives. */
  function IntToString(n: int): (s: string)
    ensures 1 <= |s|
    ensures s[0] == '-' <==> n < 0
    ensures var d := if n < 0 then s[1..] else s;
      1 <= |d| && AllDigits(d) && (d[0] == '0' ==> |d| == 1)
  {
    if n < 0 then "-" + NatToString(-n) else NatToString(n)
  }

  /** The value of a string of decimal digits (the empty string reads as 0). */
  function ParseNat(s: string): nat
    requires AllDigits(s)
  {
    if |s| == 0 then 0 else ParseNat(s[..|s| - 1]) * 10 + DigitValue(s[|s| - 1])
  }

  /** An optionally '-'-signed string of decimal digits. */
  predicate IsIntText(s: string) {
    (|s| > 0 && s[0] == '-' && AllDigits(s[1..])) || AllDigits(s)
  }

  /** The value of an optionally '-'-signed string of decimal digits. */
  function ParseInt(s: string): int
    requires IsIntText(s)
  {
    if |s| > 0 && s[0] == '-' then -(ParseNat(s[1..]) as int) else ParseNat(s)
  }

  /** Reading back what `NatToString` wrote gives the number again. */
  lemma {:induction false} ParseNatToString(n: nat)
    ensures ParseNat(NatToString(n)) == n
    decreases n
  {
    var s := NatToString(n);
    if n < 10 {
      assert s[..0] == [];
    } else {
      ParseNatToString(n / 10);
      assert s[..|s| - 1] == NatToString(n / 10);
    }
  }

  /** Distinct numbers have distinct decimal names. */
  lemma NatToStringInjective(m: nat, n: nat)
    ensures NatToString(m) == NatToString(n) <==> m == n
  {
    if NatToString(m) == NatToString(n) {
      ParseNatToString(m);
      ParseNatToString(n);
    }
  }

  /** Reading back what `IntToString` wrote gives the number again. */
  lemma ParseIntToString(n: int)
    ensures IsIntText(IntToString(n)) && ParseInt(IntToString(n)) == n
  {
    var s := IntToString(n);
    if n < 0 {
      var digits := NatToString(-n);
      assert s == "-" + digits && s[1..] == digits;
      ParseNatToString(-n);
      assert ParseInt(s) == -(ParseNat(digits) as int);
    } else {
      var digits := NatToString(n);
      assert s == digits && IsDigit(s[0]);
      ParseNatToString(n);
      assert ParseInt(s) == ParseNat(digits);
    }
  }
}

=== FILE: home.dfy ===
/** The home screen (`HomeScreen`): the favourite and saved toggles, the
    saved-stories list, the star-rating icons, the read-count abbreviation and
    the navigation that opens a book. */
module Home {
  import opened Wrappers
  import opened Decimal
  import opened Content
  import opened Sequences
  import StoryReader

  // ---------------------------------------------------------------------------
  // Read-count abbreviation
  // ---------------------------------------------------------------------------

  /** What `formatNumber` shows: a scaled amount with a "M" or "K" suffix, or
      the number's own decimal text. The amount is the exact quotient; its
      one-decimal rounding by `toFixed(1)` is not modelled. */
  datatype ShortNumber = Scaled(amount: real, suffix: string) | Plain(text: string)

  function FormatNumber(num: int): (r: ShortNumber)
    ensures (r.Scaled? && r.suffix == "M") <==> num >= 1000000
    ensures (r.Scaled? && r.suffix == "K") <==> 1000 <= num < 1000000
    ensures r.Plain? <==> num < 1000
    ensures r.Scaled? ==> 1.0 <= r.amount && (r.suffix == "K" ==> r.amount < 1000.0)
    ensures r.Scaled? && r.suffix == "M" ==> r.amount * 1000000.0 == num as real
    ensures r.Scaled? && r.suffix == "K" ==> r.amount * 1000.0 == num as real
    ensures r.Plain? ==> IsIntText(r.text) && ParseInt(r.text) == num
    ensures r.Plain? ==> r.text == IntToString(num)
  {
    if num >= 1000000 then Scaled(num as real / 1000000.0, "M")
    else if num >= 1000 then Scaled(num as real / 1000.0, "K")
    else
      ParseIntToString(num);
      Plain(IntToString(num))
  }

  // ---------------------------------------------------------------------------
  // Star rating
  // ---------------------------------------------------------------------------

  datatype Star = Full | Half | Empty

  /** `Math.trunc`: the whole part, rounded toward zero. */
  function Trunc(x: real): int {
    if x >= 0.0 then x.Floor else -((-x).Floor)
  }

  /** `x % 1` in JavaScript: the fractional part, carrying the sign of `x`. */
  function FractionalPart(x: real): (f: real)
    ensures -1.0 < f < 1.0
    ensures x >= 0.0 ==> 0.0 <= f && f == x - x.Floor as real
    ensures x < 0.0 ==> f <= 0.0
  {
    x - Trunc(x) as real
  }

  /** `renderStars`: five icons; full below `Math.floor(rating)`, a half star
      at that position when `rating % 1 >= 0.5`, empty otherwise. */
  function StarIcons(rating: real): (icons: seq<Star>)
    ensures |icons| == 5
    ensures forall i :: 0 <= i < 5 ==> (icons[i] == Full <==> i < rating.Floor)
    ensures forall i :: 0 <= i < 5 ==>
      (icons[i] == Half <==> i == rating.Floor && FractionalPart(rating) >= 0.5)
  {
    var full := rating.Floor;
    var half := FractionalPart(rating) >= 0.5;
    seq(5, i requires 0 <= i < 5 =>
      if i < full then Full else if i == full && half then Half else Empty)
  }

  function Repeat(s: Star, n: nat): (r: seq<Star>)
    ensures |r| == n && forall i :: 0 <= i < n ==> r[i] == s
  {
    seq(n, _ => s)
  }

  /** The icons are a run of full stars, at most one half star, then empty
      stars: `min(5, floor)` full ones for a non-negative rating, and none at
      all for a negative one. */
  lemma StarLayout(rating: real)
    ensures var f := if rating.Floor < 0 then 0 else if rating.Floor > 5 then 5 else rating.Floor;
      var h := if 0 <= rating.Floor < 5 && FractionalPart(rating) >= 0.5 then 1 else 0;
      StarIcons(rating) == Repeat(Full, f) + Repeat(Half, h) + Repeat(Empty, 5 - f - h)
    ensures rating < 0.0 ==> StarIcons(rating) == Repeat(Empty, 5)
  {
    var icons := StarIcons(rating);
    var f := if rating.Floor < 0 then 0 else if rating.Floor > 5 then 5 else rating.Floor;
    var h := if 0 <= rating.Floor < 5 && FractionalPart(rating) >= 0.5 then 1 else 0;
    var layout := Repeat(Full, f) + Repeat(Half, h) + Repeat(Empty, 5 - f - h);
    forall i | 0 <= i < 5 ensures icons[i] == layout[i] {
      if i < f {
        assert layout[i] == Full;
      } else if i < f + h {
        assert layout[i] == Half;
      } else {
        assert layout[i] == Empty;
      }
    }
  }

  // ---------------------------------------------------------------------------
  // Favourites and saved stories
  // ---------------------------------------------------------------------------

  /** The home screen's state: the stories shown and the two flag maps. */
  datatype Library = Library(
    stories: seq<Story>,
    favorites: map<string, bool>,
    saved: map<string, bool>)

  /** `flags[id] || false`: an absent key reads as false. */
  function Flag(flags: map<string, bool>, id: string): bool {
    id in flags && flags[id]
  }

  /** `{...prev, [id]: !prev[id]}`. */
  function Toggle(flags: map<string, bool>, id: string): (r: map<string, bool>)
    ensures id in r && Flag(r, id) == !Flag(flags, id)
    ensures forall k :: k != id ==> (k in r <==> k in flags)
    ensures forall k :: k != id && k in flags ==> r[k] == flags[k]
  {
    flags[id := !Flag(flags, id)]
  }

  /** Toggling twice restores every flag; it restores the map itself once the
      key is present. */
  lemma ToggleTwice(flags: map<string, bool>, id: string)
    ensures forall k :: Flag(Toggle(Toggle(flags, id), id), k) == Flag(flags, k)
    ensures id in flags ==> Toggle(Toggle(flags, id), id) == flags
  {
  }

  /** `handleToggleFavorite`. */
  function ToggleFavorite(lib: Library, id: string): (r: Library)
    ensures Flag(r.favorites, id) == !Flag(lib.favorites, id)
    ensures forall k :: k != id ==> Flag(r.favorites, k) == Flag(lib.favorites, k)
    ensures r.saved == lib.saved && r.stories == lib.stories
  {
    lib.(favorites := Toggle(lib.favorites, id))
  }

  /** `handleToggleSave`. */
  function ToggleSave(lib: Library, id: string): (r: Library)
    ensures Flag(r.saved, id) == !Flag(lib.saved, id)
    ensures forall k :: k != id ==> Flag(r.saved, k) == Flag(lib.saved, k)
    ensures r.favorites == lib.favorites && r.stories == lib.stories
  {
    lib.(saved := Toggle(lib.saved, id))
  }

  /** The saved-stories list: `stories.filter(story => saved[story.id])`. */
  function SavedStories(stories: seq<Story>, saved: map<string, bool>): (r: seq<Story>)
    ensures forall s :: s in r <==> s in stories && Flag(saved, s.id)
    ensures IsSubsequence(r, stories)
    ensures |r| <= |stories|
    ensures forall s :: multiset(r)[s] == if Flag(saved, s.id) then multiset(stories)[s] else 0
    decreases |stories|
  {
    if |stories| == 0 then SubsequenceEmpty(stories); []
    else
      var rest := SavedStories(stories[1..], saved);
      assert stories == [stories[0]] + stories[1..];
      assert multiset(stories) == multiset{stories[0]} + multiset(stories[1..]);
      if Flag(saved, stories[0].id) then
        SubsequenceKeep(stories[0], rest, stories[1..]);
        [stories[0]] + rest
      else
        SubsequenceSkip(stories[0], rest, stories[1..]);
        rest
  }

  /** Saving a story puts it on the saved list; unsaving takes it off. */
  lemma ToggleSaveMovesStory(lib: Library, story: Story)
    requires story in lib.stories
    ensures story in SavedStories(ToggleSave(lib, story.id).stories, ToggleSave(lib, story.id).saved)
      <==> !Flag(lib.saved, story.id)
  {
  }

  // ---------------------------------------------------------------------------
  // Opening a book
  // ---------------------------------------------------------------------------

  /** The route parameters of the story page. */
  datatype Route = StoryPage(bookId: string, mode: Option<string>)

  /** `handlePressOpen`: navigate to the story page for this book in "open" mode. */
  function PressOpen(book: Story): (r: Route)
    ensures r.bookId == book.id && r.mode == Some("open")
  {
    StoryPage(book.id, Some("open"))
  }

  predicate UniqueStoryIds(stories: seq<Story>) {
    forall i, j :: 0 <= i < j < |stories| ==> stories[i].id != stories[j].id
  }

  /** A book opened from the list is always found by the reader, and a first
      mount of the reader starts on its mode choice at the first page; with
      unique ids it is that very book. Later opens reuse the mounted screen:
      see `StoryReader.SwitchBookAsWritten`. */
  lemma OpenedBookIsFound(stories: seq<Story>, book: Story)
    requires book in stories
    ensures var s := StoryReader.OpenReader(stories, PressOpen(book).bookId);
      && s.ReaderScreen? && s.story.id == book.id
      && s.session.mode.None? && s.session.pageIndex == 0
      && (UniqueStoryIds(stories) ==> s.story == book)
  {
    var i :| 0 <= i < |stories| && stories[i] == book;
    var s := StoryReader.OpenReader(stories, book.id);
    var k := StoryReader.FindStoryIndex(stories, book.id);
    assert k <= i;
    if UniqueStoryIds(stories) {
      assert stories[k].id == stories[i].id;
    }
  }
}

=== FILE: reader.dfy ===
/** The story reader (`StoryPageScreen`): finding the story, the page index and
    its bounds, swipe navigation, the listen-mode timeline and its seek
    buttons, the one-second playback ticker and the `m:ss` clock text.

    Animation values, the header auto-hide timers and the draggable text
    overlay are rendering concerns and are not part of this model: a page
    transition is the single update `pageIndex := target`. */
module StoryReader {
  import opened Wrappers
  import opened Decimal
  import opened Content

  // ---------------------------------------------------------------------------
  // Content lookup
  // ---------------------------------------------------------------------------

  /** The index form of `stories.find(story => story.id === bookId)`: the
      position of the story `find` returns, or -1 when it returns `undefined`. */
  function FindStoryIndex(stories: seq<Story>, bookId: string): (r: int)
    ensures -1 <= r < |stories|
    ensures r >= 0 ==> stories[r].id == bookId
    ensures r >= 0 ==> forall j :: 0 <= j < r ==> stories[j].id != bookId
    ensures r == -1 <==> forall j :: 0 <= j < |stories| ==> stories[j].id != bookId
    decreases |stories|
  {
    if |stories| == 0 then -1
    else if stories[0].id == bookId then 0
    else
      var k := FindStoryIndex(stories[1..], bookId);
      if k == -1 then -1 else k + 1
  }

  /** `stories.find(story => story.id === bookId)`: the first story with that id. */
  function FindStory(stories: seq<Story>, bookId: string): (r: Option<Story>)
    ensures r.None? <==> forall j :: 0 <= j < |stories| ==> stories[j].id != bookId
    ensures r.Some? ==> r.value.id == bookId
    ensures r.Some? ==> exists i :: 0 <= i < |stories| && stories[i] == r.value &&
                                    (forall j :: 0 <= j < i ==> stories[j].id != bookId)
  {
    var i := FindStoryIndex(stories, bookId);
    if i == -1 then None else Some(stories[i])
  }

  // ---------------------------------------------------------------------------
  // Reader session
  // ---------------------------------------------------------------------------

  datatype Mode = Read | Listen

  /** The screen's component state. `mode` is `None` while the read/listen
      choice is on screen; `position` and `duration` are whole seconds;
      `playing` is `isPlaying`, which is also whether the ticker is armed. */
  datatype Reader = Reader(
    bookId: string,
    mode: Option<Mode>,
    pageIndex: int,
    position: int,
    duration: int,
    playing: bool)

  /** What the screen shows: the terminal "Story not found." view, or a reader
      over the story found. */
  datatype Screen = StoryNotFound | ReaderScreen(story: Story, session: Reader)

  /** The state of a freshly mounted screen. `isPlaying` starts as
      `mode === "listen"`, evaluated while the mode is still unset. */
  function InitialReader(bookId: string): Reader {
    Reader(bookId, None, 0, 0, 0, false)
  }

  /** The reader's state invariant for a story with `pageCount` pages. The
      duration is 0 until `loadAudio` sets the simulated length. */
  ghost predicate Valid(r: Reader, pageCount: int) {
    && 1 <= pageCount
    && 0 <= r.pageIndex < pageCount
    && 0 <= r.position <= r.duration <= SimulatedDuration
  }

  /** Opening the screen for `bookId`: not found is terminal and builds no
      session; otherwise a fresh session on the first page of that story. */
  function OpenReader(stories: seq<Story>, bookId: string): (s: Screen)
    ensures s.StoryNotFound? <==> forall j :: 0 <= j < |stories| ==> stories[j].id != bookId
    ensures s.ReaderScreen? ==> s.story.id == bookId && s.story in stories
    ensures s.ReaderScreen? ==> FindStory(stories, bookId) == Some(s.story)
    ensures s.ReaderScreen? ==> s.session.position == 0 && s.session.duration == 0
    ensures s.ReaderScreen? ==>
      (s.session.bookId == bookId && s.session.mode.None? && s.session.pageIndex == 0 && !s.session.playing)
    ensures s.ReaderScreen? && |s.story.pages| >= 1 ==> Valid(s.session, |s.story.pages|)
  {
    match FindStory(stories, bookId)
    case None => StoryNotFound
    case Some(story) => ReaderScreen(story, InitialReader(bookId))
  }

  predicate IsFirstPage(r: Reader) {
    r.pageIndex == 0
  }

  predicate IsLastPage(r: Reader, pageCount: int) {
    r.pageIndex == pageCount - 1
  }

  /** On a valid session the page is both first and last exactly when the story has one page. */
  lemma FirstAndLastOnlyForOnePage(r: Reader, pageCount: int)
    requires Valid(r, pageCount)
    ensures IsFirstPage(r) && IsLastPage(r, pageCount) <==> pageCount == 1
  {
  }

  /** A new `bookId` route parameter: the mode is cleared and the page index
      goes back to 0. The playback position and duration are left as they were. */
  function ChangeBook(r: Reader, bookId: string): (r': Reader)
    ensures r'.bookId == bookId
    ensures bookId != r.bookId ==> r'.mode.None? && r'.pageIndex == 0
    ensures bookId == r.bookId ==> r' == r
    ensures r'.position == r.position && r'.duration == r.duration && r'.playing == r.playing
  {
    if bookId == r.bookId then r else r.(bookId := bookId, mode := None, pageIndex := 0)
  }

  /** Once the reset effects have run, a switch to another book is back on the
      choice view at page 0, so the session is valid for the new story whatever
      its page count. Whether the screen survives until then is `SwitchBookAsWritten`'s
      question. */
  lemma ChangeBookKeepsValid(r: Reader, pageCount: int, bookId: string, newPageCount: int)
    requires Valid(r, pageCount) && 1 <= newPageCount && bookId != r.bookId
    ensures Valid(ChangeBook(r, bookId), newPageCount)
  {
  }

  /** Pressing "Read" or "Listen" on the mode-choice view. Choosing sets the
      mode and therefore resets the page index to 0; once a mode is set the
      choice view is gone and nothing changes. */
  function ChooseMode(r: Reader, m: Mode): (r': Reader)
    ensures r.mode.None? ==> r'.mode == Some(m) && r'.pageIndex == 0
    ensures r' == r.(mode := r'.mode, pageIndex := r'.pageIndex)
    ensures r.mode.Some? ==> r' == r
  {
    if r.mode.Some? then r else r.(mode := Some(m), pageIndex := 0)
  }

  // ---------------------------------------------------------------------------
  // Swipe gestures
  // ---------------------------------------------------------------------------

  const SwipeThreshold: int := 50

  /** The page a released horizontal drag `dx` asks for, if any. The
      comparisons with the threshold are strict, and the ends clamp. */
  function SwipeTarget(dx: int, current: int, pageCount: int): (r: Option<int>)
    ensures r == Some(current + 1) <==> dx < -SwipeThreshold && current < pageCount - 1
    ensures r == Some(current - 1) <==> dx > SwipeThreshold && current > 0
    ensures r.Some? ==> r == Some(current + 1) || r == Some(current - 1)
    ensures -SwipeThreshold <= dx <= SwipeThreshold ==> r.None?
    ensures 0 <= current < pageCount && r.Some? ==> 0 <= r.value < pageCount
  {
    if dx < -SwipeThreshold && current < pageCount - 1 then Some(current + 1)
    else if dx > SwipeThreshold && current > 0 then Some(current - 1)
    else None
  }

  /** A swipe on the reader view (the choice view has no swipe handler). */
  function SwipePage(r: Reader, pageCount: int, dx: int): (r': Reader)
    ensures r' == r.(pageIndex := r'.pageIndex)
    ensures r'.pageIndex != r.pageIndex ==> r.mode.Some? && SwipeTarget(dx, r.pageIndex, pageCount) == Some(r'.pageIndex)
    ensures r.mode.Some? && SwipeTarget(dx, r.pageIndex, pageCount).Some? ==>
      r'.pageIndex == SwipeTarget(dx, r.pageIndex, pageCount).value
    ensures IsLastPage(r, pageCount) && dx < -SwipeThreshold ==> r' == r
    ensures IsFirstPage(r) && dx > SwipeThreshold ==> r' == r
  {
    if r.mode.None? then r
    else
      match SwipeTarget(dx, r.pageIndex, pageCount)
      case None => r
      case Some(t) => r.(pageIndex := t)
  }

  // ---------------------------------------------------------------------------
  // Rendering and switching books
  // ---------------------------------------------------------------------------

  /** What one render of the screen shows for a story under a session. */
  datatype View = ChoiceView | PageView(page: Page) | RenderThrows

  /** One render: with no mode the choice view; with a mode the page at the
      current index, whose picture the render reads unconditionally, so an
      index outside the story throws. */
  function RenderView(story: Story, r: Reader): (v: View)
    ensures v.ChoiceView? <==> r.mode.None?
    ensures v.RenderThrows? <==> r.mode.Some? && !(0 <= r.pageIndex < |story.pages|)
    ensures v.PageView? ==> 0 <= r.pageIndex < |story.pages| && v.page == story.pages[r.pageIndex]
  {
    if r.mode.None? then ChoiceView
    else if 0 <= r.pageIndex < |story.pages| then PageView(story.pages[r.pageIndex])
    else RenderThrows
  }

  /** A valid session never makes the render throw. */
  lemma ValidSessionRenders(story: Story, r: Reader)
    requires Valid(r, |story.pages|)
    ensures !RenderView(story, r).RenderThrows?
    ensures RenderView(story, r).PageView? ==> RenderView(story, r).page in story.pages
  {
  }

  /** The outcome of navigating the mounted screen to another story. */
  datatype Switch = Switched(session: Reader) | Crashed

  /** As written: the screen stays mounted, so the new `bookId` is first
      rendered with the previous mode and page index, and the reset effects
      run only after that render. If it throws, they never run. */
  function SwitchBookAsWritten(r: Reader, story: Story): (s: Switch)
    ensures s.Crashed? <==> r.mode.Some? && !(0 <= r.pageIndex < |story.pages|)
    ensures s.Switched? ==> s.session == ChangeBook(r, story.id)
  {
    if RenderView(story, r.(bookId := story.id)).RenderThrows? then Crashed
    else Switched(ChangeBook(r, story.id))
  }

  /** As intended: the reset takes effect before the new story is shown, so a
      switch to another story with pages always lands on its choice view. */
  function SwitchBook(r: Reader, story: Story): (s: Switch)
    ensures s.Switched?
    ensures story.id != r.bookId ==> RenderView(story, s.session).ChoiceView?
    ensures story.id != r.bookId && |story.pages| >= 1 && 0 <= r.position <= r.duration <= SimulatedDuration ==>
      Valid(s.session, |story.pages|)
    ensures Valid(r, |story.pages|) ==> !RenderView(story, s.session).RenderThrows?
  {
    Switched(ChangeBook(r, story.id))
  }

  /** `n` pages with ascending numbers and no timeline. */
  function BlankPages(n: nat): (pages: seq<Page>)
    ensures |pages| == n
  {
    seq(n, i requires 0 <= i < n => Page(i + 1, "", "", 0, None))
  }

  function BlankStory(id: string, n: nat): (s: Story)
    ensures s.id == id && |s.pages| == n
  {
    Story(id, "", "", "", "", 0.0, 0, "", "", None, BlankPages(n), 0, [])
  }

  /** Reading page 6 of an eight-page story, then opening a five-page story:
      the first render asks for a sixth page of the new story and throws, while
      the intended switch shows the new story's choice view. */
  lemma SwitchToShorterStoryThrows()
    ensures var long := BlankStory("a", 8);
      var short := BlankStory("b", 5);
      var r := Reader("a", Some(Read), 5, 0, 0, false);
      && Valid(r, |long.pages|)
      && SwitchBookAsWritten(r, short).Crashed?
      && SwitchBook(r, short).Switched?
      && RenderView(short, SwitchBook(r, short).session).ChoiceView?
  {
  }

  /** After that switch goes through on a shorter story, the pan handler still
      compares with the first story's page count: a left swipe on the last of
      five pages, judged against eight, moves to a sixth page that the next
      render cannot draw. Judged against the story's own count it stays put. */
  lemma StaleSwipeCountThrows()
    ensures var short := BlankStory("b", 5);
      var r := Reader("b", Some(Read), 4, 0, 0, false);
      && Valid(r, |short.pages|)
      && RenderView(short, SwipePage(r, 8, -60)).RenderThrows?
      && SwipePage(r, |short.pages|, -60) == r
  {
  }

  /** With the story's own page count, no swipe on a valid session makes the
      next render throw. */
  lemma SwipeNeverThrows(story: Story, r: Reader, dx: int)
    requires Valid(r, |story.pages|)
    ensures Valid(SwipePage(r, |story.pages|, dx), |story.pages|)
    ensures !RenderView(story, SwipePage(r, |story.pages|, dx)).RenderThrows?
  {
  }

  // ---------------------------------------------------------------------------
  // Listen-mode timeline
  // ---------------------------------------------------------------------------

  /** Page `i` is the one playing at second `pos`: its timestamp has passed and
      the next page's has not (the last page runs on for ever). */
  predicate PageCovers(pages: seq<Page>, i: int, pos: int)
    requires 0 <= i < |pages|
  {
    pages[i].audioTimestamp <= pos && (i == |pages| - 1 || pos < pages[i + 1].audioTimestamp)
  }

  /** The `findIndex` of the listen-mode sync: the first page covering `pos`, or -1. */
  function PageForPosition(pages: seq<Page>, pos: int): (r: int)
    ensures -1 <= r < |pages|
    ensures r >= 0 ==> PageCovers(pages, r, pos)
    ensures r >= 0 ==> forall j :: 0 <= j < r ==> !PageCovers(pages, j, pos)
    ensures r == -1 <==> forall j :: 0 <= j < |pages| ==> !PageCovers(pages, j, pos)
    decreases |pages|
  {
    if |pages| == 0 then -1
    else if PageCovers(pages, 0, pos) then 0
    else
      var k := PageForPosition(pages[1..], pos);
      assert forall j :: 1 <= j < |pages| ==> (PageCovers(pages, j, pos) <==> PageCovers(pages[1..], j - 1, pos)) by {
        forall j | 1 <= j < |pages|
          ensures PageCovers(pages, j, pos) <==> PageCovers(pages[1..], j - 1, pos)
        {
          CoversShift(pages, j, pos);
        }
      }
      if k == -1 then -1 else assert PageCovers(pages, k + 1, pos); k + 1
  }

  /** Dropping the first page shifts every later page's interval down by one index. */
  lemma CoversShift(pages: seq<Page>, j: int, pos: int)
    requires 1 <= j < |pages|
    ensures PageCovers(pages, j, pos) <==> PageCovers(pages[1..], j - 1, pos)
  {
    assert pages[1..][j - 1] == pages[j];
    if j < |pages| - 1 {
      assert pages[1..][j] == pages[j + 1];
    }
  }

  /** On a non-decreasing timeline no two pages cover the same second. */
  lemma AtMostOnePageCovers(pages: seq<Page>, pos: int, i: int, j: int)
    requires TimestampsNonDecreasing(pages)
    requires 0 <= i < |pages| && 0 <= j < |pages|
    requires PageCovers(pages, i, pos) && PageCovers(pages, j, pos)
    ensures i == j
  {
  }

  /** On a non-decreasing timeline every second from the first timestamp on is
      covered by some page. */
  lemma {:induction false} SomePageCovers(pages: seq<Page>, pos: int)
    requires |pages| >= 1 && TimestampsNonDecreasing(pages)
    requires pages[0].audioTimestamp <= pos
    ensures exists i :: 0 <= i < |pages| && PageCovers(pages, i, pos)
    decreases |pages|
  {
    if |pages| == 1 || pos < pages[1].audioTimestamp {
      assert PageCovers(pages, 0, pos);
    } else {
      var rest := pages[1..];
      assert TimestampsNonDecreasing(rest) by {
        forall i, j | 0 <= i <= j < |rest|
          ensures rest[i].audioTimestamp <= rest[j].audioTimestamp
        {
          assert rest[i] == pages[i + 1] && rest[j] == pages[j + 1];
        }
      }
      SomePageCovers(rest, pos);
      var i :| 0 <= i < |rest| && PageCovers(rest, i, pos);
      assert PageCovers(pages, i + 1, pos);
    }
  }

  /** On a non-decreasing timeline the lookup fails exactly before the first
      page's timestamp, and otherwise finds the one page covering `pos`. */
  lemma PageFoundIffStarted(pages: seq<Page>, pos: int)
    requires |pages| >= 1 && TimestampsNonDecreasing(pages)
    ensures PageForPosition(pages, pos) == -1 <==> pos < pages[0].audioTimestamp
    ensures PageForPosition(pages, pos) != -1 ==>
      forall j :: 0 <= j < |pages| && PageCovers(pages, j, pos) ==> j == PageForPosition(pages, pos)
  {
    var r := PageForPosition(pages, pos);
    if pages[0].audioTimestamp <= pos {
      SomePageCovers(pages, pos);
      forall j | 0 <= j < |pages| && PageCovers(pages, j, pos)
        ensures j == r
      {
        AtMostOnePageCovers(pages, pos, j, r);
      }
    } else {
      assert forall j :: 0 <= j < |pages| ==> pages[0].audioTimestamp <= pages[j].audioTimestamp;
    }
  }

  /** The page the listen-mode sync asks the animator for: only a found page
      that differs from the current one. */
  function SyncTarget(pages: seq<Page>, pos: int, current: int): (r: Option<int>)
    ensures r.Some? ==> 0 <= r.value < |pages| && PageCovers(pages, r.value, pos) && r.value != current
    ensures r.None? <==> PageForPosition(pages, pos) == -1 || PageForPosition(pages, pos) == current
    ensures r.Some? ==> r.value == PageForPosition(pages, pos)
  {
    var next := PageForPosition(pages, pos);
    if next != -1 && next != current then Some(next) else None
  }

  /** On a non-decreasing timeline the sync stays idle exactly when playback
      has not reached the first page yet or the current page is the one playing. */
  lemma SyncIdleIff(pages: seq<Page>, pos: int, current: int)
    requires |pages| >= 1 && TimestampsNonDecreasing(pages)
    requires 0 <= current < |pages|
    ensures SyncTarget(pages, pos, current).None? <==>
      pos < pages[0].audioTimestamp || PageCovers(pages, current, pos)
  {
    PageFoundIffStarted(pages, pos);
  }

  /** One run of the one-second sync interval, active while listening and playing. */
  function SyncPage(r: Reader, pages: seq<Page>): (r': Reader)
    ensures r' == r.(pageIndex := r'.pageIndex)
    ensures r'.pageIndex != r.pageIndex ==>
      r.mode == Some(Listen) && r.playing && 0 <= r'.pageIndex < |pages|
      && PageCovers(pages, r'.pageIndex, r.position)
    ensures r'.pageIndex != r.pageIndex ==> SyncTarget(pages, r.position, r.pageIndex) == Some(r'.pageIndex)
    ensures r.mode == Some(Listen) && r.playing && SyncTarget(pages, r.position, r.pageIndex).Some? ==>
      r'.pageIndex == SyncTarget(pages, r.position, r.pageIndex).value
  {
    if r.mode == Some(Listen) && r.playing then
      match SyncTarget(pages, r.position, r.pageIndex)
      case None => r
      case Some(t) => r.(pageIndex := t)
    else r
  }

  // ---------------------------------------------------------------------------
  // Seek buttons and the playback ticker
  // ---------------------------------------------------------------------------

  const SeekStep: int := 10

  /** `Math.max(0, position - 10)`. */
  function RewindPosition(pos: int): (r: int)
    ensures r >= 0 && r >= pos - SeekStep
    ensures r == 0 || r == pos - SeekStep
  {
    if pos - SeekStep < 0 then 0 else pos - SeekStep
  }

  /** `Math.min(duration, position + 10)`. */
  function ForwardPosition(pos: int, duration: int): (r: int)
    ensures r <= duration && r <= pos + SeekStep
    ensures r == duration || r == pos + SeekStep
  {
    if duration < pos + SeekStep then duration else pos + SeekStep
  }

  /** Both seek buttons keep an in-range position in `[0, duration]`, moving
      it by at most ten seconds in their own direction. */
  lemma SeekStaysInRange(pos: int, duration: int)
    requires 0 <= pos <= duration
    ensures 0 <= RewindPosition(pos) <= pos <= duration
    ensures pos <= ForwardPosition(pos, duration) <= duration
    ensures pos - RewindPosition(pos) <= SeekStep && ForwardPosition(pos, duration) - pos <= SeekStep
  {
  }

  /** The rewind button, shown only in listen mode. */
  function Rewind(r: Reader): (r': Reader)
    ensures r.mode == Some(Listen) ==> r' == r.(position := RewindPosition(r.position))
    ensures r.mode != Some(Listen) ==> r' == r
  {
    if r.mode == Some(Listen) then r.(position := RewindPosition(r.position)) else r
  }

  /** The fast-forward button, shown only in listen mode. */
  function FastForward(r: Reader): (r': Reader)
    ensures r.mode == Some(Listen) ==> r' == r.(position := ForwardPosition(r.position, r.duration))
    ensures r.mode != Some(Listen) ==> r' == r
  {
    if r.mode == Some(Listen) then r.(position := ForwardPosition(r.position, r.duration)) else r
  }

  /** The outcome of one tick: the new position, and whether the ticker stays armed. */
  datatype TickResult = TickResult(position: int, running: bool)

  /** The state updater `prev => prev + 1` run once a second, which clamps to
      the duration and stops the ticker once the end is reached. */
  function Tick(prev: int, duration: int): (r: TickResult)
    ensures r.running <==> prev + 1 < duration
    ensures r.running ==> r.position == prev + 1
    ensures !r.running ==> r.position == duration
    ensures r.position <= duration
  {
    if prev + 1 >= duration then TickResult(duration, false) else TickResult(prev + 1, true)
  }

  /** The ticker state after `ticks` more seconds, stopping once it has stopped. */
  function Play(position: int, duration: int, ticks: nat): TickResult
    decreases ticks
  {
    if ticks == 0 then TickResult(position, true)
    else
      var t := Tick(position, duration);
      if !t.running then t else Play(t.position, duration, ticks - 1)
  }

  /** Playback from an in-range position advances one second per tick and
      stops exactly when it reaches the duration. */
  lemma {:induction false} PlayReachesEnd(position: int, duration: int, ticks: nat)
    requires 0 <= position < duration
    ensures Play(position, duration, ticks).position ==
      if position + ticks < duration then position + ticks else duration
    ensures Play(position, duration, ticks).running <==> position + ticks < duration
    decreases ticks
  {
    if ticks > 0 && position + 1 < duration {
      PlayReachesEnd(position + 1, duration, ticks - 1);
    }
  }

  /** The simulated audio length that `loadAudio` sets, in seconds. */
  const SimulatedDuration: int := 90

  /** `loadAudio` with the duration it intends: playing, 90 seconds long. No
      code path of the screen calls it; it is the only way `playing` is set. */
  function StartListening(r: Reader): (r': Reader)
    ensures r'.playing && r'.duration == SimulatedDuration
    ensures r' == r.(playing := r'.playing, duration := r'.duration)
  {
    r.(playing := true, duration := SimulatedDuration)
  }

  /** One tick of the ticker as intended: it reads the session's duration. */
  function TickReader(r: Reader): (r': Reader)
    ensures !r.playing ==> r' == r
    ensures r.playing ==> r'.position == Tick(r.position, r.duration).position
    ensures r.playing ==> (r'.playing <==> r.position + 1 < r.duration)
    ensures r' == r.(position := r'.position, playing := r'.playing)
  {
    if !r.playing then r
    else
      var t := Tick(r.position, r.duration);
      r.(position := t.position, playing := t.running)
  }

  /** One tick of the ticker as `loadAudio` arms it: the updater's closure
      reads `playbackDuration` from the render that created `loadAudio`, before
      `setPlaybackDuration(90)` took effect. */
  function TickAsWritten(r: Reader, capturedDuration: int): (r': Reader)
    ensures r' == r.(position := r'.position, playing := r'.playing)
    ensures r'.playing <==> r.position + 1 < capturedDuration
    ensures r'.position == if r'.playing then r.position + 1 else capturedDuration
  {
    var t := Tick(r.position, capturedDuration);
    r.(position := t.position, playing := t.running)
  }

  /** As written, listening from a freshly opened reader stops at 0:00 on the
      first tick, while the intended ticker moves on to second 1 and keeps playing. */
  lemma StaleDurationStopsPlayback(bookId: string)
    ensures var r := ChooseMode(InitialReader(bookId), Listen);
      var started := StartListening(r);
      && TickAsWritten(started, r.duration) == started.(position := 0, playing := false)
      && TickReader(started) == started.(position := 1)
  {
  }

  // ---------------------------------------------------------------------------
  // Clock text
  // ---------------------------------------------------------------------------

  /** `formatTime`: whole minutes, a colon, and the seconds in two digits. */
  function FormatTime(seconds: nat): (t: string)
    ensures |t| >= 4 && t[|t| - 3] == ':'
    ensures AllDigits(t[..|t| - 3]) && AllDigits(t[|t| - 2..])
    ensures t[|t| - 2] == '0' <==> seconds % 60 < 10
    ensures t[0] == '0' ==> |t| == 4
  {
    var secs := seconds % 60;
    var pad := if secs < 10 then "0" else "";
    NatToString(seconds / 60) + ":" + pad + NatToString(secs)
  }

  /** Reads `m:ss` clock text back into seconds. */
  function ParseTime(t: string): Option<nat> {
    if |t| >= 4 && t[|t| - 3] == ':' && AllDigits(t[..|t| - 3]) && AllDigits(t[|t| - 2..])
       && ParseNat(t[|t| - 2..]) < 60
    then Some(ParseNat(t[..|t| - 3]) * 60 + ParseNat(t[|t| - 2..]))
    else None
  }

  /** The clock text names exactly the second it was made from: minutes times
      sixty plus a seconds field below sixty. */
  lemma FormatTimeRoundTrip(seconds: nat)
    ensures ParseTime(FormatTime(seconds)) == Some(seconds)
  {
    var t := FormatTime(seconds);
    var mins := NatToString(seconds / 60);
    var secs := seconds % 60;
    assert t[..|t| - 3] == mins;
    ParseNatToString(seconds / 60);
    ParseNatToString(secs);
    var field := t[|t| - 2..];
    if secs < 10 {
      assert field == "0" + NatToString(secs);
      assert field[..1] == "0";
      assert ParseNat(field[..1]) == 0;
      assert field[1] == DigitChar(secs);
    } else {
      assert field == NatToString(secs);
    }
  }

  // ---------------------------------------------------------------------------
  // The session as a whole
  // ---------------------------------------------------------------------------

  /** The inputs that change a session of one story. */
  datatype Event =
    | PickMode(mode: Mode)
    | SwipeRelease(dx: int)
    | SyncInterval
    | RewindPress
    | FastForwardPress
    | TickSecond
    | StartAudio

  function Step(r: Reader, story: Story, e: Event): Reader {
    match e
    case PickMode(m) => ChooseMode(r, m)
    case SwipeRelease(dx) => SwipePage(r, |story.pages|, dx)
    case SyncInterval => SyncPage(r, story.pages)
    case RewindPress => Rewind(r)
    case FastForwardPress => FastForward(r)
    case TickSecond => TickReader(r)
    case StartAudio => StartListening(r)
  }

  function Run(r: Reader, story: Story, events: seq<Event>): Reader
    decreases |events|
  {
    if |events| == 0 then r else Run(Step(r, story, events[0]), story, events[1..])
  }

  /** Every input keeps the page index on a page of the story and the playback
      position within `[0, duration]`. */
  lemma StepPreservesValid(r: Reader, story: Story, e: Event)
    requires Valid(r, |story.pages|)
    ensures Valid(Step(r, story, e), |story.pages|)
  {
  }

  /** Any sequence of inputs keeps the session valid. */
  lemma {:induction false} RunPreservesValid(r: Reader, story: Story, events: seq<Event>)
    requires Valid(r, |story.pages|)
    ensures Valid(Run(r, story, events), |story.pages|)
    decreases |events|
  {
    if |events| > 0 {
      StepPreservesValid(r, story, events[0]);
      RunPreservesValid(Step(r, story, events[0]), story, events[1..]);
    }
  }

  /** The timeline of a three-page story with timestamps 0, 30 and 60 seconds. */
  lemma ExampleTimeline(story: Story)
    requires |story.pages| == 3
    requires story.pages[0].audioTimestamp == 0
    requires story.pages[1].audioTimestamp == 30
    requires story.pages[2].audioTimestamp == 60
    ensures PageForPosition(story.pages, 29) == 0
    ensures PageForPosition(story.pages, 30) == 1
    ensures PageForPosition(story.pages, 89) == 2
    ensures Tick(89, SimulatedDuration) == TickResult(SimulatedDuration, false)
  {
    assert PageCovers(story.pages, 0, 29);
    assert PageCovers(story.pages, 1, 30);
    assert PageCovers(story.pages, 2, 89);
  }
}

=== FILE: sequences.dfy ===
/** Order-preserving sub-lists, shared by the filters of the app's lists. */
module Sequences {

  /** `idx` lists, in strictly increasing order, the positions of `b` that
      the elements of `a` are taken from. */
  ghost predicate IsEmbedding<T>(idx: seq<nat>, a: seq<T>, b: seq<T>) {
    && |idx| == |a|
    && (forall k :: 0 <= k < |idx| ==> idx[k] < |b| && b[idx[k]] == a[k])
    && (forall i, j :: 0 <= i < j < |idx| ==> idx[i] < idx[j])
  }

  /** `a` is `b` with some elements left out, in the same order. */
  ghost predicate IsSubsequence<T>(a: seq<T>, b: seq<T>) {
    exists idx: seq<nat> :: IsEmbedding(idx, a, b)
  }

  /** Every position moved one place to the right. */
  function Shift(idx: seq<nat>): (r: seq<nat>)
    ensures |r| == |idx|
    ensures forall k :: 0 <= k < |idx| ==> r[k] == idx[k] + 1
  {
    seq(|idx|, k requires 0 <= k < |idx| => idx[k] + 1)
  }

  lemma SubsequenceEmpty<T>(b: seq<T>)
    ensures IsSubsequence([], b)
  {
    assert IsEmbedding([], [], b);
  }

  /** A filter that keeps the head of `b` keeps it in front. */
  lemma SubsequenceKeep<T>(x: T, a: seq<T>, b: seq<T>)
    requires IsSubsequence(a, b)
    ensures IsSubsequence([x] + a, [x] + b)
  {
    var idx :| IsEmbedding(idx, a, b);
    var idx' := [0] + Shift(idx);
    forall k | 0 <= k < |idx'|
      ensures idx'[k] < |[x] + b| && ([x] + b)[idx'[k]] == ([x] + a)[k]
    {
      if k > 0 {
        assert idx'[k] == idx[k - 1] + 1;
      }
    }
    assert IsEmbedding(idx', [x] + a, [x] + b);
  }

  /** A filter that drops the head of `b` takes everything from its tail. */
  lemma SubsequenceSkip<T>(x: T, a: seq<T>, b: seq<T>)
    requires IsSubsequence(a, b)
    ensures IsSubsequence(a, [x] + b)
  {
    var idx :| IsEmbedding(idx, a, b);
    var idx' := Shift(idx);
    forall k | 0 <= k < |idx'|
      ensures idx'[k] < |[x] + b| && ([x] + b)[idx'[k]] == a[k]
    {
      assert ([x] + b)[idx[k] + 1] == b[idx[k]];
    }
    assert IsEmbedding(idx', a, [x] + b);
  }
}

=== FILE: wrappers.dfy ===
/** The optional value used wherever the app has `null`, `undefined` or an
    absent record field. */
module Wrappers {

  datatype Option<+T> = None | Some(value: T)
}
